=== FILE: README.md ===
# Shop backend: guards, cart and checkout

A Dafny model of the behavioural core of a small Express/Sequelize shop
backend. The database is one immutable `Store` value holding the Product,
Cart and Order tables, and every route handler is a pure function from a
request and a store to a reply and the next store. The model covers:

- **The request guards.** `authenticate` reads the `Authorization` header.
  It takes the second space-separated field as the token and hands it to a
  token verifier. `authorize(role)` then compares the caller's role with the
  role the route demands. A guard that halts a request answers it itself
  (401 or 403), and the handler never runs.
- **The cart.** POST /cart appends exactly one row owned by the caller.
  GET /cart filters the table by owner.
- **The checkout engine.** POST /checkout refuses an empty cart with 400.
  Otherwise it charges a flat 100 per unit, appends one `pending` order for
  the caller, and deletes the caller's cart rows and no one else's.
- **Products.** Creation is open to sellers only, and the new product is
  stamped with the caller's id. The listing returns the whole table.

Modules:

- `Schema`: entities, the `buyer`/`seller` and `pending`/`completed`
  enumerations, the quantity default of 1 and the unit price of 100.
- `Http`: replies and request bodies.
- `Split`: JavaScript's `String.prototype.split` on one character, with its
  inverse `Join`.
- `Auth`: the guards.
- `Cart`, `Checkout` and `Products`: the handlers.
- `App`: route dispatch through the guard chains.

Parameters stand in for everything outside the program. `verify` is the
JSON Web Token verifier: it maps a token to the decoded `{id, role}`
payload, or to `None` where the library throws. The library throws on an
empty token, so a faithful `verify` maps "" to `None`. `newId` is the
UUIDV4 key that Sequelize generates on the client side for an inserted row.

Literal behaviours of the code that the model keeps:

- An empty `Authorization` header is answered "Unauthorized", not
  "Invalid token", because the code tests the header for JavaScript
  truthiness.
- Cart quantities are not checked to be positive, and product price and
  stock are not checked to be non-negative. Any value the INTEGER column
  can hold is accepted, and the checkout total formula holds for all of
  them.
- The checkout total is 100 × (units in the cart), whatever each product's
  price is.
- Some inserts are rejected by Sequelize's validation or by the database:
  - Sequelize's validation rejects a NOT NULL column left empty (the
    product's `name`, `price` or `stock`, or the cart row's `productId`)
    before any SQL is sent;
  - the database rejects a cart quantity or product stock outside the
    32-bit INTEGER range;
  - the database rejects a product name or description holding U+0000;
  - the database rejects a product name longer than the 255 characters of
    its VARCHAR column, unless everything past the limit is spaces. Such a
    name is stored cut to 255 characters.

  The async handler catches none of these, so the request fails without
  the handler's reply. The model writes this as `Unhandled` and leaves the
  store unchanged.

## Model

| member | source | states |
|---|---|---|
| Split.Split | middlewares/auth.js:8 | `token.split(" ")` always yields at least one field, and no field contains the separator. There is exactly one field iff the string has no separator, and that field is then the whole string. |
| Split.JoinSplit | middlewares/auth.js:8 | Splitting loses nothing: joining the fields with the separator gives the header back. |
| Split.SplitJoin | middlewares/auth.js:8 | Splitting is the inverse of joining, for fields that contain no separator. |
| Split.SecondField | middlewares/auth.js:8 | `split(" ")[1]` is defined iff the header contains a space, and it contains no space itself. |
| Split.SecondFieldIgnoresTail | singlefile.js:57 | For "scheme token rest", the token handed on is exactly the second field. Later fields are ignored. |
| Auth.Authenticate | middlewares/auth.js:3-14 | An absent or empty header gives 401 "Unauthorized". Identity is attached only when the second field exists and the verifier accepts it, and it is exactly the decoded payload. Every other present header gives 401 "Invalid token". |
| Auth.AbsentHeaderIgnoresVerifier | middlewares/auth.js:4-5 | Without a header the result does not depend on the verifier, so the verifier is never consulted. |
| Auth.BearerHeaderAuthenticates | singlefile.js:56-61 | "Bearer <token>" hands exactly `<token>` to the verifier. Acceptance continues with the payload, and rejection gives 401 "Invalid token". |
| Auth.EmptyBearerTokenIsInvalid | middlewares/auth.js:7-12 | "Bearer " hands the empty token to the verifier. A verifier that rejects "", as the library does, gives 401 "Invalid token". |
| Auth.HeaderWithoutTokenIsInvalid | middlewares/auth.js:7-12 | A non-empty header without a second field is always 401 "Invalid token", whatever the verifier says. |
| Auth.Authorize | middlewares/auth.js:16-21 | The request continues iff the caller's role equals the required role, and it keeps the same identity. Otherwise the result is 403 "Forbidden". |
| Auth.Guarded | routes/product.js:8 | The chain continues iff authentication succeeds and the role, when one is required, matches. An authentication halt propagates unchanged, and a later halt is 403. |
| Cart.RowsOf | singlefile.js:110 | The owner filter holds exactly the table's rows whose `userId` is the user. |
| Cart.RowsOfConcat | singlefile.js:110 | The owner filter distributes over concatenation, so rows stay in table order. |
| Cart.DropRowsOf | singlefile.js:121 | After the delete the user has no rows left. Every other user's rows are unchanged and in order, and nothing else is removed. |
| Cart.DropRowsOfPartitions | singlefile.js:121 | The deleted rows plus the kept rows are exactly the original table, as a multiset. |
| Cart.AddToCart | singlefile.js:103-107 | One row is appended. It is owned by the caller whatever the body says, and its quantity defaults to 1. The caller's rows grow by exactly that row with no merging, and other users' rows are unchanged. The request is `Unhandled`, with the store unchanged, exactly when the product id is missing or the quantity does not fit in 32 bits. |
| Cart.ListCart | singlefile.js:109-112 | The reply is the caller's rows exactly, in table order and with their multiplicity, and the store is untouched. |
| Checkout.Reduce | singlefile.js:119 | The `reduce` fold equals its start value plus 100 × the sum of quantities. |
| Checkout.Checkout | singlefile.js:115-124 | The reply is 400 "Cart is empty" iff the caller has no rows, and then the store is unchanged. Otherwise exactly one order is appended, with the caller, `pending` and 100 × units, and the earlier orders are kept. The reply total equals the stored total. The caller's cart is left empty, and the other users' rows and the products are unchanged. |
| Checkout.TwoAndThreeUnitsCost500 | singlefile.js:116-123 | Line items of 2 and 3 units give one pending order of 500 and an empty cart. |
| Checkout.CheckoutChargesOnce | singlefile.js:116-121 | A checkout straight after a successful one is refused as an empty cart and changes nothing. |
| Products.CreateProduct | routes/product.js:8-12 | One product is appended. Its `sellerId` is the caller's id. Description, price and stock are copied from the body. The name is copied, or cut to 255 characters when only spaces follow. Carts and orders are untouched. The request is `Unhandled`, with the store unchanged, exactly when one of these holds: a NOT NULL field is missing; the name or description holds U+0000; the name does not fit VARCHAR(255); or the stock does not fit in 32 bits. |
| Products.TrailingSpacesAreCut | routes/product.js:10 | A name of 255 characters followed by spaces is accepted and stored as its first 255 characters. |
| Products.NulIsRefused | routes/product.js:10 | A name or description holding U+0000 makes the insert fail, and the store is unchanged. |
| Schema.StoreVarchar | singlefile.js:30 | Assignment to VARCHAR(255) succeeds iff every character past the 255th is a space. The stored value is a prefix of the input, of length min(length, 255). |
| Schema.StoreVarcharDropsOnlySpaces | singlefile.js:30 | The stored name plus the dropped suffix is the original, and the dropped suffix is all spaces. |
| Products.SellerIdFromBodyIgnored | routes/product.js:9-10 | A `sellerId` sent in the body changes nothing. |
| Products.ListProducts | routes/product.js:15-18 | The reply is every product in table order, and the store is untouched. |
| App.Handle | singlefile.js:91-124 | A request a guard rejects gets that guard's 401 or 403, and the store is unchanged. GET routes never write. Product creation that writes has passed authentication with the seller role and stamps the caller's id. |
| App.MissingHeaderIsUnauthorized | singlefile.js:54 | Every guarded route answers a request without a header with 401 "Unauthorized" and writes nothing. |
| App.BuyerCannotCreateProduct | singlefile.js:67 | An authenticated buyer gets 403 "Forbidden" from POST /products, and the store is unchanged. |
| App.ReadsAreIdempotent | singlefile.js:97-112 | Repeating GET /products or GET /cart on the resulting store gives the same reply and store. |

## Left out

- Registration and login (singlefile.js:73-88): they reduce to bcrypt hashing and comparison, JWT signing, and the e-mail unique constraint. These are foreign libraries and a database constraint.
- JWT verification itself: it is the `verify` parameter. Tokens are assumed to decode to an `{id, role}` payload whose role is one of the two schema roles, as login signs them.
- Row keys: UUIDV4 defaults are random, so a fresh key is the `newId` parameter.
- Sequelize model definitions, the database connection, Express/CORS/dotenv setup and server start-up: this is wiring and I/O. The schema survives only as the `Schema` datatypes and the column rules above.
- The webhook route (singlefile.js:127-130): it only logs its body and acknowledges.
- Atomicity and concurrency: checkout is one sequential transition. Racing requests, and a crash between order creation and cart deletion, are not modelled.
- FLOAT columns: `price` is an opaque `real` that is only stored. `totalAmount` is an exact integer, since it is computed from integer quantities. Floating-point rounding is not modelled.
- Whether a cart `productId` is valid UUID text is not checked. Postgres rejects other text in a UUID column; the model accepts any string there and answers 200.
- What the client sees for an `Unhandled` request depends on the Express and Node versions, which are not part of this model. Under Express 4 the rejected promise goes unhandled, and Node 15 or later then stops the whole process. Under Express 5 the default error handler answers 500.
- An explicit JSON `null` in a body field is not distinguished from an absent field.
- Body fields are assumed to hold JSON values of their column's type. `express.json()` hands the handler whatever JSON the client sent. Non-integer numbers, numeric strings, booleans and objects are not modelled. So the statements of exactly when `Cart.AddToCart` and `Products.CreateProduct` are `Unhandled` cover well-typed bodies only.
- Timestamps: Sequelize adds `createdAt` and `updatedAt` columns to every table, because the definitions at singlefile.js:20-49 keep the default `timestamps: true`. They are set from the clock and returned in every reply. The model's rows and replies leave both columns out.
- Row order of reads: the `findAll` calls at singlefile.js:98, 110 and 116 have no `order` option, so Postgres may return rows in any order, and reused space after deletes can reorder them. The model returns rows in insertion order, which is one of the orders Postgres may return. "Table order" in the contracts above means this modelled order.
- Auth.Authenticate: an exception thrown synchronously by a later stage inside the guard's `try` block is not modelled. The handlers are async and do not throw synchronously.

=== FILE: app.dfy ===
/** The routed application: each request passes the guard chain its route
    declares, and only then reaches its handler. */
module App {
  import opened Schema
  import opened Http
  import opened Auth
  import Cart
  import Checkout
  import Products

  /** The requests of the modelled routes, with the `Authorization` header
      of the guarded ones and the body fields their handlers read. */
  datatype Request =
    | PostProducts(authorization: Option<string>, productBody: ProductBody)
    | GetProducts
    | PostCart(authorization: Option<string>, cartBody: CartBody)
    | GetCart(authorization: Option<string>)
    | PostCheckout(authorization: Option<string>)

  /** The role a route demands after authentication: only product creation
      is restricted, to sellers. */
  function RequiredRole(req: Request): Option<Role> {
    if req.PostProducts? then Some(Seller) else None
  }

  /** The request is stopped by one of its route's guards. */
  predicate Rejected(req: Request, verify: string -> Option<Identity>) {
    !req.GetProducts? && Guarded(req.authorization, verify, RequiredRole(req)).Halt?
  }

  /** Dispatch one request. `verify` is the token verifier; `newId` is the
      UUIDV4 primary key Sequelize would generate for an inserted row. */
  function Handle(req: Request, store: Store, verify: string -> Option<Identity>, newId: Uuid): (h: Handled)
    ensures Rejected(req, verify) ==>
              var g := Guarded(req.authorization, verify, RequiredRole(req));
              h == Handled(Json(g.status, Message(g.message)), store)
    ensures Rejected(req, verify) ==> h.response.status == 401 || h.response.status == 403
    ensures req.GetProducts? || req.GetCart? ==> h.store == store
    ensures req.PostProducts? && h.store != store ==>
              && Authenticate(req.authorization, verify).Continue?
              && Authenticate(req.authorization, verify).identity.role == Seller
              && |h.store.products| == |store.products| + 1
              && h.store.products[|store.products|].sellerId == Authenticate(req.authorization, verify).identity.id
    ensures h.store != store ==> !Rejected(req, verify)
  {
    match req
    case GetProducts => Products.ListProducts(store)
    case _ =>
      match Guarded(req.authorization, verify, RequiredRole(req))
      case Halt(status, message) => Handled(Json(status, Message(message)), store)
      case Continue(who) =>
        match req
        case PostProducts(_, body) => Products.CreateProduct(store, who, body, newId)
        case PostCart(_, body) => Cart.AddToCart(store, who, body, newId)
        case GetCart(_) => Cart.ListCart(store, who)
        case PostCheckout(_) => Checkout.Checkout(store, who, newId)
  }

  /** Every guarded route answers a request without a header 401
      "Unauthorized" and writes nothing. */
  lemma MissingHeaderIsUnauthorized(req: Request, store: Store, verify: string -> Option<Identity>, newId: Uuid)
    requires !req.GetProducts? && req.authorization == None
    ensures Handle(req, store, verify, newId) == Handled(Json(401, Message(Unauthorized)), store)
  {
  }

  /** An authenticated buyer is refused product creation with 403 and the
      product table is unchanged. */
  lemma BuyerCannotCreateProduct(header: Option<string>, body: ProductBody, store: Store,
                                 verify: string -> Option<Identity>, newId: Uuid)
    requires Authenticate(header, verify).Continue?
    requires Authenticate(header, verify).identity.role == Buyer
    ensures Handle(PostProducts(header, body), store, verify, newId) == Handled(Json(403, Message(Forbidden)), store)
  {
  }

  /** The read routes are idempotent: repeating one on the store it left
      gives the same reply and store. */
  lemma ReadsAreIdempotent(req: Request, store: Store, verify: string -> Option<Identity>, f1: Uuid, f2: Uuid)
    requires req.GetProducts? || req.GetCart?
    ensures var first := Handle(req, store, verify, f1);
            Handle(req, first.store, verify, f2) == first
  {
  }
}

=== FILE: auth.dfy ===
/** The two request guards (singlefile.js and its modular copy
    middlewares/auth.js). A guard either lets the request continue to the
    next stage, carrying the caller's identity, or halts it with a status
    and a message; a halted request never reaches the route handler.
    Token verification is a library call with a server secret, so it is a
    parameter here: a verifier maps a token to the payload it decodes to,
    or to `None` when it throws (forged, malformed or missing token). */
module Auth {
  import opened Schema
  import opened Http
  import Split

  /** What a guard decides: call `next` with an identity, or reply. */
  datatype Guard = Continue(identity: Identity) | Halt(status: int, message: string)

  /** JavaScript truthiness of the header value: `!token` holds for an
      absent header and for the empty string alike. */
  predicate HeaderPresent(header: Option<string>) {
    header.Some? && header.value != ""
  }

  /** The token handed to the verifier: the second space-separated field of
      the header, `None` when the header has no space. */
  function TokenOf(header: string): Option<string> {
    Split.SecondField(header, ' ')
  }

  /** The `authenticate` middleware. */
  function Authenticate(header: Option<string>, verify: string -> Option<Identity>): (g: Guard)
    ensures !HeaderPresent(header) ==> g == Halt(401, Unauthorized)
    ensures g.Continue? ==>
              && HeaderPresent(header)
              && TokenOf(header.value).Some?
              && verify(TokenOf(header.value).value) == Some(g.identity)
    ensures (HeaderPresent(header) && TokenOf(header.value).Some?
             && verify(TokenOf(header.value).value).Some?) ==> g.Continue?
    ensures HeaderPresent(header) && g.Halt? ==> g == Halt(401, InvalidToken)
  {
    if !HeaderPresent(header) then Halt(401, Unauthorized)
    else
      match TokenOf(header.value)
      case None => Halt(401, InvalidToken)
      case Some(token) =>
        match verify(token)
        case None => Halt(401, InvalidToken)
        case Some(decoded) => Continue(decoded)
  }

  /** The middleware built by `authorize(role)`: it passes only on an exact
      role match. Its identity argument is the one `Authenticate` attached,
      so it cannot run on a request that was not authenticated. */
  function Authorize(required: Role, who: Identity): (g: Guard)
    ensures g.Continue? <==> who.role == required
    ensures g.Continue? ==> g.identity == who
    ensures g.Halt? ==> g == Halt(403, Forbidden)
  {
    if who.role != required then Halt(403, Forbidden) else Continue(who)
  }

  /** The guard chain of a route: `authenticate`, then `authorize(role)`
      when the route names a role. The first halt ends the chain. */
  function Guarded(header: Option<string>, verify: string -> Option<Identity>, required: Option<Role>): (g: Guard)
    ensures g.Continue? <==>
              Authenticate(header, verify).Continue?
              && (required.Some? ==> Authenticate(header, verify).identity.role == required.value)
    ensures g.Continue? ==> g.identity == Authenticate(header, verify).identity
    ensures Authenticate(header, verify).Halt? ==> g == Authenticate(header, verify)
    ensures Authenticate(header, verify).Continue? && g.Halt? ==> g == Halt(403, Forbidden)
  {
    match Authenticate(header, verify)
    case Halt(status, message) => Halt(status, message)
    case Continue(who) =>
      match required
      case None => Continue(who)
      case Some(role) => Authorize(role, who)
  }

  /** A missing header is answered without consulting the verifier. */
  lemma AbsentHeaderIgnoresVerifier(header: Option<string>, v1: string -> Option<Identity>, v2: string -> Option<Identity>)
    requires !HeaderPresent(header)
    ensures Authenticate(header, v1) == Authenticate(header, v2) == Halt(401, Unauthorized)
  {
  }

  /** A header of the documented shape "Bearer <token>" hands exactly
      `<token>` to the verifier, and its verdict decides the outcome. */
  lemma BearerHeaderAuthenticates(token: string, verify: string -> Option<Identity>)
    requires ' ' !in token
    ensures Authenticate(Some("Bearer " + token), verify) ==
              match verify(token)
              case Some(who) => Continue(who)
              case None => Halt(401, InvalidToken)
  {
    Split.SecondFieldOfSchemeAndToken("Bearer", ' ', token);
    assert "Bearer " + token == "Bearer" + [' '] + token;
  }

  /** "Bearer " hands the empty token to the verifier. The library throws
      on an empty token, so a faithful verifier maps "" to `None`, and the
      request is rejected as an invalid token. */
  lemma EmptyBearerTokenIsInvalid(verify: string -> Option<Identity>)
    requires verify("") == None
    ensures Authenticate(Some("Bearer "), verify) == Halt(401, InvalidToken)
  {
  }

  /** A non-empty header with no space has no second field; it is rejected
      as an invalid token whatever the verifier would say. */
  lemma HeaderWithoutTokenIsInvalid(header: string, verify: string -> Option<Identity>)
    requires header != "" && ' ' !in header
    ensures Authenticate(Some(header), verify) == Halt(401, InvalidToken)
  {
  }
}

=== FILE: cart.dfy ===
/** The Cart table: the per-user queries the handlers issue against it
    (`findAll`/`destroy` with `where: { userId }`) and the POST and GET
    /cart handlers. */
module Cart {
  import opened Schema
  import opened Http

  /** `Cart.findAll({ where: { userId: user } })`: the user's rows, in
      the order the model keeps the table (insertion order). */
  function RowsOf(carts: seq<CartRow>, user: Uuid): (mine: seq<CartRow>)
    ensures forall x :: x in mine <==> x in carts && x.userId == user
    ensures |mine| <= |carts|
    decreases |carts|
  {
    if |carts| == 0 then []
    else if carts[0].userId == user then [carts[0]] + RowsOf(carts[1..], user)
    else RowsOf(carts[1..], user)
  }

  /** `Cart.destroy({ where: { userId: user } })`: the table without the
      user's rows. The user has no rows left, and every other user's rows
      are still there, in the same order. */
  function DropRowsOf(carts: seq<CartRow>, user: Uuid): (rest: seq<CartRow>)
    ensures forall x :: x in rest <==> x in carts && x.userId != user
    ensures RowsOf(rest, user) == []
    ensures forall other :: other != user ==> RowsOf(rest, other) == RowsOf(carts, other)
    decreases |carts|
  {
    if |carts| == 0 then []
    else if carts[0].userId == user then DropRowsOf(carts[1..], user)
    else
      var tail := DropRowsOf(carts[1..], user);
      assert ([carts[0]] + tail)[1..] == tail;
      [carts[0]] + tail
  }

  /** Filtering by owner distributes over concatenation: it keeps rows in
      table order. */
  lemma {:induction false} RowsOfConcat(a: seq<CartRow>, b: seq<CartRow>, user: Uuid)
    ensures RowsOf(a + b, user) == RowsOf(a, user) + RowsOf(b, user)
    decreases |a|
  {
    if |a| > 0 {
      assert (a + b)[0] == a[0];
      assert (a + b)[1..] == a[1..] + b;
      RowsOfConcat(a[1..], b, user);
    } else {
      assert a + b == b;
    }
  }

  /** Deleting a user's rows loses nothing else: the rows removed and the
      rows kept together are the whole table. */
  lemma {:induction false} DropRowsOfPartitions(carts: seq<CartRow>, user: Uuid)
    ensures multiset(RowsOf(carts, user)) + multiset(DropRowsOf(carts, user)) == multiset(carts)
    decreases |carts|
  {
    if |carts| > 0 {
      DropRowsOfPartitions(carts[1..], user);
      assert carts == [carts[0]] + carts[1..];
    }
  }

  /** POST /cart: insert one row for the caller. The owner is the caller,
      never a `userId` from the body; an absent quantity takes the column
      default. The insert rejects, and the handler does not reply, when the
      product id is absent (NOT NULL) or the quantity does not fit the
      INTEGER column. There is no merging with an existing row for the same
      product. */
  function AddToCart(store: Store, caller: Identity, body: CartBody, rowId: Uuid): (h: Handled)
    ensures body.productId.None? ==> h == Handled(Unhandled(NotNullViolation), store)
    ensures body.productId.Some? && !FitsInteger(body.quantity.GetOr(DefaultQuantity)) ==>
              h == Handled(Unhandled(IntegerOutOfRange), store)
    ensures h.response.Unhandled? <==>
              body.productId.None? || !FitsInteger(body.quantity.GetOr(DefaultQuantity))
    ensures !h.response.Unhandled? ==>
              var row := CartRow(rowId, caller.id, body.productId.value, body.quantity.GetOr(DefaultQuantity));
              && h.response == Json(200, CartItemJson(row))
              && h.store.carts == store.carts + [row]
              && h.store.products == store.products
              && h.store.orders == store.orders
              && RowsOf(h.store.carts, caller.id) == RowsOf(store.carts, caller.id) + [row]
              && (forall other :: other != caller.id ==> RowsOf(h.store.carts, other) == RowsOf(store.carts, other))
  {
    match body.productId
    case None => Handled(Unhandled(NotNullViolation), store)
    case Some(productId) =>
      var quantity := body.quantity.GetOr(DefaultQuantity);
      if !FitsInteger(quantity) then Handled(Unhandled(IntegerOutOfRange), store)
      else
        var row := CartRow(rowId, caller.id, productId, quantity);
        RowsOfConcat(store.carts, [row], caller.id);
        assert forall other :: other != caller.id ==> RowsOf(store.carts + [row], other) == RowsOf(store.carts, other) by {
          forall other | other != caller.id
            ensures RowsOf(store.carts + [row], other) == RowsOf(store.carts, other)
          {
            RowsOfConcat(store.carts, [row], other);
          }
        }
        Handled(Json(200, CartItemJson(row)), store.(carts := store.carts + [row]))
  }

  /** GET /cart: the caller's rows, in table order; the store is not
      touched. */
  function ListCart(store: Store, caller: Identity): (h: Handled)
    ensures h.store == store
    ensures h.response.Json? && h.response.status == 200 && h.response.body.CartItemList?
    // A consequence of the next clause and the contract of `RowsOf`.
    ensures forall x :: x in h.response.body.items <==> x in store.carts && x.userId == caller.id
    ensures h.response.body.items == RowsOf(store.carts, caller.id)
  {
    Handled(Json(200, CartItemList(RowsOf(store.carts, caller.id))), store)
  }
}

=== FILE: checkout.dfy ===
/** The checkout engine (POST /checkout): turn the caller's cart into one
    pending order and empty the cart. */
module Checkout {
  import opened Schema
  import opened Http
  import opened Cart

  /** The number of units in a list of line items. */
  function SumQuantities(rows: seq<CartRow>): int
    decreases |rows|
  {
    if |rows| == 0 then 0 else rows[0].quantity + SumQuantities(rows[1..])
  }

  /** `rows.reduce((sum, item) => sum + item.quantity * 100, acc)`: a left
      fold that charges the flat unit price for every unit. */
  function Reduce(rows: seq<CartRow>, acc: int): (total: int)
    ensures total == acc + UnitPrice * SumQuantities(rows)
    decreases |rows|
  {
    if |rows| == 0 then acc
    else Reduce(rows[1..], acc + rows[0].quantity * UnitPrice)
  }

  /** POST /checkout for an authenticated caller; `orderId` is the UUIDV4 key
      Sequelize generates for the new order. An empty cart is refused before
      anything is written. Otherwise exactly one pending order is appended,
      charged 100 per unit in the caller's cart, and the caller's rows (and
      no one else's) are deleted. */
  function Checkout(store: Store, caller: Identity, orderId: Uuid): (h: Handled)
    ensures RowsOf(store.carts, caller.id) == [] <==> h.response == Json(400, Message(CartIsEmpty))
    ensures RowsOf(store.carts, caller.id) == [] ==> h.store == store
    ensures RowsOf(store.carts, caller.id) != [] ==>
              var total := UnitPrice * SumQuantities(RowsOf(store.carts, caller.id));
              && h.store.orders == store.orders + [Order(orderId, caller.id, total, Pending)]
              && h.response == Json(200, OrderPlaced(OrderPlacedText, h.store.orders[|store.orders|].totalAmount))
              && h.store.products == store.products
              && RowsOf(h.store.carts, caller.id) == []
              && (forall other :: other != caller.id ==> RowsOf(h.store.carts, other) == RowsOf(store.carts, other))
              && multiset(h.store.carts) + multiset(RowsOf(store.carts, caller.id)) == multiset(store.carts)
  {
    var mine := RowsOf(store.carts, caller.id);
    if |mine| == 0 then Handled(Json(400, Message(CartIsEmpty)), store)
    else
      var totalAmount := Reduce(mine, 0);
      var order := Order(orderId, caller.id, totalAmount, Pending);
      DropRowsOfPartitions(store.carts, caller.id);
      Handled(Json(200, OrderPlaced(OrderPlacedText, totalAmount)),
              store.(orders := store.orders + [order], carts := DropRowsOf(store.carts, caller.id)))
  }

  /** Line items of 2 and 3 units come to 500. */
  lemma TwoAndThreeUnitsCost500(caller: Identity, p: Uuid, q: Uuid, orderId: Uuid)
    ensures var store := Store([], [CartRow("a", caller.id, p, 2), CartRow("b", caller.id, q, 3)], []);
            Checkout(store, caller, orderId) ==
              Handled(Json(200, OrderPlaced(OrderPlacedText, 500)),
                      Store([], [], [Order(orderId, caller.id, 500, Pending)]))
  {
    var rows := [CartRow("a", caller.id, p, 2), CartRow("b", caller.id, q, 3)];
    assert rows[1..][1..] == [];
    assert RowsOf(rows, caller.id) == rows;
    assert SumQuantities(rows[1..]) == 3;
    assert DropRowsOf(rows, caller.id) == [];
  }

  /** A second checkout right after a successful one finds the cart empty
      and changes nothing: a cart is charged at most once. */
  lemma CheckoutChargesOnce(store: Store, caller: Identity, id1: Uuid, id2: Uuid)
    requires RowsOf(store.carts, caller.id) != []
    ensures var after := Checkout(store, caller, id1).store;
            Checkout(after, caller, id2) == Handled(Json(400, Message(CartIsEmpty)), after)
  {
  }
}

=== FILE: http.dfy ===
/** What a handler sends back, and the request bodies it reads. */
module Http {
  import opened Schema

  /** The JSON payload of a reply. */
  datatype Body =
    | Message(text: string)
    | ProductJson(product: Product)
    | ProductList(products: seq<Product>)
    | CartItemJson(item: CartRow)
    | CartItemList(items: seq<CartRow>)
    | OrderPlaced(text: string, totalAmount: int)

  /** A reply with a status code and a JSON body, or a request that fails
      without the handler's reply: the async handler's insert rejects and
      nothing in the handler catches it. */
  datatype Response =
    | Json(status: int, body: Body)
    | Unhandled(fault: string)

  /** The outcome of handling one request: the reply and the store after it. */
  datatype Handled = Handled(response: Response, store: Store)

  /** Fields read from the body of POST /products. `sellerId` may be sent by
      a client but is never read. */
  datatype ProductBody = ProductBody(
    name: Option<string>,
    description: Option<string>,
    price: Option<Price>,
    stock: Option<int>,
    sellerId: Option<Uuid>)

  /** Fields read from the body of POST /cart. `userId` may be sent by a
      client but is never read. */
  datatype CartBody = CartBody(
    productId: Option<Uuid>,
    quantity: Option<int>,
    userId: Option<Uuid>)

  const Unauthorized: string := "Unauthorized"
  const InvalidToken: string := "Invalid token"
  const Forbidden: string := "Forbidden"
  const CartIsEmpty: string := "Cart is empty"
  const OrderPlacedText: string := "Order placed successfully"

  /** The fault raised when an insert leaves a NOT NULL column empty. */
  const NotNullViolation: string := "notNull Violation"

  /** The fault raised when a value exceeds an INTEGER column's range. */
  const IntegerOutOfRange: string := "integer out of range"

  /** The fault raised when a string exceeds a VARCHAR(255) column. */
  const ValueTooLong: string := "value too long for type character varying(255)"

  /** The fault raised when a text value holds U+0000. */
  const InvalidByteSequence: string := "invalid byte sequence for encoding \"UTF8\": 0x00"
}

=== FILE: products.dfy ===
/** The Product handlers: creation (behind the seller guard, applied by the
    router) and the public listing. Both the single-file app and
    routes/product.js define them identically. */
module Products {
  import opened Schema
  import opened Http

  /** The handler of POST /products, run with the identity the guards
      attached. `name`, `description`, `price` and `stock` are copied from
      the body without checks of their own; `sellerId` is always the
      caller's id. The request fails without the handler's reply when
      Sequelize's validation finds a NOT NULL column (`name`, `price`,
      `stock`) absent, or when the database refuses the insert: a name or
      description holding U+0000, a name that does not fit its VARCHAR(255)
      column, or a stock outside its INTEGER column. A name longer than 255
      characters whose excess is all spaces is stored cut to 255. */
  function CreateProduct(store: Store, caller: Identity, body: ProductBody, productId: Uuid): (h: Handled)
    ensures body.name.None? || body.price.None? || body.stock.None? ==>
              h == Handled(Unhandled(NotNullViolation), store)
    ensures h.response.Unhandled? <==>
              || body.name.None? || body.price.None? || body.stock.None?
              || HasNul(body.name.value)
              || (body.description.Some? && HasNul(body.description.value))
              || StoreVarchar(body.name.value).None?
              || !FitsInteger(body.stock.value)
    ensures h.response.Unhandled? ==> h.store == store
    ensures !h.response.Unhandled? ==>
              && |h.store.products| == |store.products| + 1
              && h.store.products[..|store.products|] == store.products
              && h.store.carts == store.carts
              && h.store.orders == store.orders
              && var created := h.store.products[|store.products|];
                 && created.sellerId == caller.id
                 && created.id == productId
                 && created.name <= body.name.value
                 && (|body.name.value| <= StringMaxLength ==> created.name == body.name.value)
                 && (|body.name.value| > StringMaxLength ==> |created.name| == StringMaxLength)
                 && created.description == body.description
                 && created.price == body.price.value
                 && created.stock == body.stock.value
                 && h.response == Json(200, ProductJson(created))
  {
    if body.name.None? || body.price.None? || body.stock.None? then
      Handled(Unhandled(NotNullViolation), store)
    else if HasNul(body.name.value) || (body.description.Some? && HasNul(body.description.value)) then
      Handled(Unhandled(InvalidByteSequence), store)
    else
      match StoreVarchar(body.name.value)
      case None => Handled(Unhandled(ValueTooLong), store)
      case Some(name) =>
        if !FitsInteger(body.stock.value) then
          Handled(Unhandled(IntegerOutOfRange), store)
        else
          var product := Product(productId, name, body.description,
                                 body.price.value, body.stock.value, caller.id);
          Handled(Json(200, ProductJson(product)), store.(products := store.products + [product]))
  }

  /** A `sellerId` in the body has no effect on what is stored or sent. */
  lemma SellerIdFromBodyIgnored(store: Store, caller: Identity, body: ProductBody, forged: Uuid, productId: Uuid)
    ensures CreateProduct(store, caller, body.(sellerId := Some(forged)), productId)
         == CreateProduct(store, caller, body.(sellerId := None), productId)
  {
  }

  /** A name that is 255 characters plus trailing spaces is stored, cut to
      its first 255 characters. */
  lemma TrailingSpacesAreCut(store: Store, caller: Identity, body: ProductBody, productId: Uuid, spaces: nat)
    requires body.name.Some? && body.price.Some? && body.stock.Some?
    requires |body.name.value| == StringMaxLength + spaces && spaces > 0
    requires forall i :: StringMaxLength <= i < |body.name.value| ==> body.name.value[i] == ' '
    requires !HasNul(body.name.value) && (body.description.Some? ==> !HasNul(body.description.value))
    requires FitsInteger(body.stock.value)
    ensures var h := CreateProduct(store, caller, body, productId);
            && h.response.Json?
            && h.store.products == store.products
                 + [Product(productId, body.name.value[..StringMaxLength], body.description,
                            body.price.value, body.stock.value, caller.id)]
  {
  }

  /** A name or description holding U+0000 is refused by the database. */
  lemma NulIsRefused(store: Store, caller: Identity, body: ProductBody, productId: Uuid)
    requires body.name.Some? && body.price.Some? && body.stock.Some?
    requires HasNul(body.name.value) || (body.description.Some? && HasNul(body.description.value))
    ensures CreateProduct(store, caller, body, productId) == Handled(Unhandled(InvalidByteSequence), store)
  {
  }

  /** GET /products: every product, unfiltered, and the store untouched. */
  function ListProducts(store: Store): (h: Handled)
    ensures h.store == store
    ensures h.response.Json? && h.response.status == 200 && h.response.body.ProductList?
    ensures |h.response.body.products| == |store.products|
    ensures forall i :: 0 <= i < |store.products| ==> h.response.body.products[i] == store.products[i]
  {
    Handled(Json(200, ProductList(store.products)), store)
  }
}

=== FILE: schema.dfy ===
/** The persistent entities of the shop backend: the Product, Cart and Order
    tables with their column types, the two closed enumerations of the
    schema, and the decoded token payload that the guards attach to a
    request. The whole database is one immutable Store value; every handler
    is a pure transition from one Store to the next. */
module Schema {

  /** An optional value; `None` plays the role of a JSON field that is absent
      from a request body (JavaScript `undefined`). */
  datatype Option<+T> = None | Some(value: T) {

    /** The carried value, or `default` when absent. */
    function GetOr(default: T): T {
      match this
      case Some(v) => v
      case None => default
    }
  }

  /** Primary keys and foreign keys are UUID strings. */
  type Uuid = string

  /** The `role` column of User is ENUM("buyer", "seller"). */
  datatype Role = Buyer | Seller

  /** The `status` column of Order is ENUM("pending", "completed"). */
  datatype OrderStatus = Pending | Completed

  /** The payload a verified token decodes to: the user's id and role, as
      signed at login. */
  datatype Identity = Identity(id: Uuid, role: Role)

  /** Product prices are a FLOAT column that is only stored and returned,
      never computed with; a `real` carries the value. */
  type Price = real

  /** A Product row. `description` is the only nullable column. */
  datatype Product = Product(
    id: Uuid,
    name: string,
    description: Option<string>,
    price: Price,
    stock: int,
    sellerId: Uuid)

  /** A Cart row: one line item, owned by `userId`. */
  datatype CartRow = CartRow(id: Uuid, userId: Uuid, productId: Uuid, quantity: int)

  /** An Order row. The amount is a whole number because it is only ever
      computed from integer quantities. */
  datatype Order = Order(id: Uuid, userId: Uuid, totalAmount: int, status: OrderStatus)

  /** The tables the handlers touch, each kept in insertion order. An
      unordered query may return rows in any order; the model returns them
      in this one. The `createdAt`/`updatedAt` columns are not kept. */
  datatype Store = Store(products: seq<Product>, carts: seq<CartRow>, orders: seq<Order>)

  /** Default of the Cart `quantity` column when the insert omits it. */
  const DefaultQuantity: int := 1

  /** Range of a Postgres INTEGER column (32-bit signed). */
  const IntegerMin: int := -0x8000_0000
  const IntegerMax: int := 0x7FFF_FFFF

  /** The value can be stored in an INTEGER column. */
  predicate FitsInteger(n: int) {
    IntegerMin <= n <= IntegerMax
  }

  /** Length limit of a Sequelize STRING column, VARCHAR(255) in Postgres. */
  const StringMaxLength: nat := 255

  /** The string holds U+0000, which Postgres text types cannot store. */
  predicate HasNul(s: string) {
    '\0' in s
  }

  /** What Postgres stores when `s` is assigned to a VARCHAR(255) column:
      `s` itself when it fits; cut to 255 characters when everything past
      the limit is a space; `None` (the insert fails) otherwise. */
  function StoreVarchar(s: string): (stored: Option<string>)
    ensures stored.Some? <==> forall i :: StringMaxLength <= i < |s| ==> s[i] == ' '
    ensures stored.Some? ==> stored.value <= s
    ensures stored.Some? ==> |stored.value| == if |s| <= StringMaxLength then |s| else StringMaxLength
  {
    if |s| <= StringMaxLength then Some(s)
    else if forall i :: StringMaxLength <= i < |s| ==> s[i] == ' ' then Some(s[..StringMaxLength])
    else None
  }

  /** Nothing but trailing spaces is lost: the stored string padded back
      with spaces is the original. */
  lemma StoreVarcharDropsOnlySpaces(s: string)
    requires StoreVarchar(s).Some?
    ensures var kept := StoreVarchar(s).value;
            kept + s[|kept|..] == s && forall i :: |kept| <= i < |s| ==> s[i] == ' '
  {
  }

  /** The flat per-unit price the checkout handler charges for every line
      item, whatever the product. */
  const UnitPrice: int := 100
}

=== FILE: split.dfy ===
/** JavaScript's `String.prototype.split` with a one-character separator,
    as the authentication guard uses it to take the token out of an
    `Authorization` header: every separator ends a field, so neighbouring
    separators give empty fields and the result always has at least one
    field. */
module Split {
  import opened Schema

  /** The fields of `s` between occurrences of `sep`. */
  function Split(s: string, sep: char): (fields: seq<string>)
    ensures |fields| >= 1
    ensures forall i :: 0 <= i < |fields| ==> sep !in fields[i]
    ensures |fields| == 1 <==> sep !in s
    ensures sep !in s ==> fields == [s]
    decreases |s|
  {
    if |s| == 0 then [""]
    else
      var rest := Split(s[1..], sep);
      if s[0] == sep then [""] + rest
      else
        assert s == [s[0]] + s[1..];
        [[s[0]] + rest[0]] + rest[1..]
  }

  /** `Array.prototype.join` with a one-character separator: the inverse
      of `Split`. */
  function Join(fields: seq<string>, sep: char): string
    requires |fields| >= 1
    decreases |fields|
  {
    if |fields| == 1 then fields[0]
    else fields[0] + [sep] + Join(fields[1..], sep)
  }

  /** Splitting loses nothing: joining the fields gives the string back. */
  lemma {:induction false} JoinSplit(s: string, sep: char)
    ensures Join(Split(s, sep), sep) == s
    decreases |s|
  {
    if |s| > 0 {
      var rest := Split(s[1..], sep);
      JoinSplit(s[1..], sep);
      if s[0] != sep && |rest| > 1 {
        assert Join(rest, sep) == rest[0] + [sep] + Join(rest[1..], sep);
        assert [s[0]] + rest[0] + [sep] + Join(rest[1..], sep) == [s[0]] + Join(rest, sep);
      }
      assert s == [s[0]] + s[1..];
    }
  }

  /** A separator-free prefix becomes the first field. */
  lemma {:induction false} SplitAfterField(a: string, sep: char, b: string)
    requires sep !in a
    ensures Split(a + [sep] + b, sep) == [a] + Split(b, sep)
    decreases |a|
  {
    var s := a + [sep] + b;
    if |a| == 0 {
      assert s[0] == sep && s[1..] == b;
    } else {
      assert s[0] == a[0];
      assert s[1..] == a[1..] + [sep] + b;
      SplitAfterField(a[1..], sep, b);
      assert [a[0]] + a[1..] == a;
    }
  }

  /** Joining fields that hold no separator and splitting again gives the
      same fields back. */
  lemma {:induction false} SplitJoin(fields: seq<string>, sep: char)
    requires |fields| >= 1
    requires forall i :: 0 <= i < |fields| ==> sep !in fields[i]
    ensures Split(Join(fields, sep), sep) == fields
    decreases |fields|
  {
    if |fields| > 1 {
      assert Join(fields, sep) == fields[0] + [sep] + Join(fields[1..], sep);
      SplitJoin(fields[1..], sep);
      SplitAfterField(fields[0], sep, Join(fields[1..], sep));
      assert [fields[0]] + fields[1..] == fields;
    }
  }

  /** The second field, the JavaScript `s.split(sep)[1]`; `None` stands for
      `undefined` when `s` has a single field. */
  function SecondField(s: string, sep: char): (f: Option<string>)
    ensures f.Some? <==> sep in s
    ensures f.Some? ==> sep !in f.value
  {
    var fields := Split(s, sep);
    if |fields| >= 2 then Some(fields[1]) else None
  }

  /** A header of the shape "<scheme> <token>" yields exactly the token. */
  lemma SecondFieldOfSchemeAndToken(scheme: string, sep: char, token: string)
    requires sep !in scheme && sep !in token
    ensures SecondField(scheme + [sep] + token, sep) == Some(token)
  {
    SplitAfterField(scheme, sep, token);
  }

  /** Only the second field counts: anything after a further separator is
      ignored. */
  lemma SecondFieldIgnoresTail(scheme: string, sep: char, token: string, tail: string)
    requires sep !in scheme && sep !in token
    ensures SecondField(scheme + [sep] + token + [sep] + tail, sep) == Some(token)
  {
    SplitAfterField(scheme, sep, token + [sep] + tail);
    SplitAfterField(token, sep, tail);
    assert scheme + [sep] + token + [sep] + tail == scheme + [sep] + (token + [sep] + tail);
  }
}
